=== FILE: README.md ===
# Web player state machine

This project models the playback core of a browser media player whose state is mirrored to a
remote hardware controller over a socket. The whole player is the React component in
`src/App.jsx`. This model keeps only its deterministic part. That part is one state record:
the playlist, the current track index, the playing flag, and the position and duration in
whole seconds. The operations on it are:

- next, previous and end-of-track navigation;
- the play/pause toggle, whose awaited promises become an explicit `Outcome` input;
- the remote command dispatcher (`playpause`, `play`, `pause`, `next`, `prev`, anything else);
- playlist changes: uploading audio files (with extension stripping of the name) and removing a track by id;
- the `songInfo` payload sent to the controller;
- the `M:SS` time formatter.

Every operation is a pure function from state to state. Modules:

- `Playlist` (`playlist.dfy`): tracks, unique ids, `findIndex` and `filter` by id.
- `FileNames` (`file_names.dfy`): the extension-stripping regular expression `/\.[^/.]+$/`.
- `TimeFormat` (`time_format.dfy`): `formatTime`, with a parser for the round trip.
- `Player` (`player.dfy`): the state, navigation and the toggle.
- `Remote` (`remote.dfy`): command parsing and dispatch.
- `Library` (`library.dfy`): upload and removal.
- `SongInfo` (`song_info.dfy`): the outbound payload.
- `Options` (`options.dfy`): an `Option` type.

Modelling choices:

- "A track is loaded" (`audioRef.current` is set) is modelled as `HasCurrentSong`, meaning
  `0 <= currentTrack < |playlist|`. The audio element is rendered only when
  `playlist[currentTrack]` exists (src/App.jsx:286, 515).
- The index is an `int`, as in the source. JavaScript's truncating `%` is written out as
  `JsRem`, because `removeTrack` with an absent id can make the index negative.
- `WellFormed` is the invariant every operation keeps: the index is non-negative, and it is
  in range unless the playlist is empty, in which case it is 0. Removing a track breaks it in
  two cases: removing an id that is not in the playlist (see `RemoveAbsentTrack`), and
  removing a present id when ids are not unique, where the filter deletes every copy but the
  index steps back at most once (see `RemoveRepeatedIdBreaksWellFormed`). Upload keeps ids
  unique when the new ids are fresh (`UploadKeepsIdsUnique`).
- Ids, object URLs and the upload's files are abstract inputs. Each `UploadFile` carries the
  id and URL the player would give it.

## Model

| member | source | states |
|---|---|---|
| Playlist.FindIndex | src/App.jsx:250 | the first position holding the id, or -1 exactly when no track has it |
| Playlist.WithoutId | src/App.jsx:249 | no kept track carries the id, and the result is no longer than the playlist |
| Playlist.WithoutIdMembers | src/App.jsx:249 | a track is kept exactly when it is in the playlist and its id differs |
| Playlist.WithoutAbsentId | src/App.jsx:249 | filtering out an id nobody carries returns the playlist unchanged |
| Playlist.WithoutIdDeletesOne | src/App.jsx:249-250 | with unique ids, filtering out the id at position k deletes exactly position k and keeps the order of the rest |
| Playlist.DeleteKeepsUniqueIds | src/App.jsx:249 | removing one track keeps ids pairwise distinct |
| FileNames.FindExtension | src/App.jsx:235 | the scan finds a position where the regular expression matches, or proves there is none |
| FileNames.StripExtension | src/App.jsx:235 | the name is cut at the unique match of `/\.[^/.]+$/`, or kept whole when it does not match |
| FileNames.ExtensionAtUnique | src/App.jsx:235 | at most one position starts a match, so the first match is the only one |
| FileNames.StripExtensionIsPrefix | src/App.jsx:235 | the result is a prefix of the name, and a proper prefix exactly when an extension matches |
| FileNames.StripsOnlyLastExtension | src/App.jsx:235 | `a.b.mp3` becomes `a.b` |
| FileNames.KeepsNameWithoutDot | src/App.jsx:235 | `noext` is kept |
| FileNames.KeepsTrailingDot | src/App.jsx:235 | `file.` is kept, since the extension must be non-empty |
| FileNames.KeepsDotBeforeSlash | src/App.jsx:235 | a dot followed later by `/` does not start an extension |
| TimeFormat.Decimal | src/App.jsx:283 | integer `toString`: a non-empty string of digits, a single digit exactly for numbers below 10, with no leading zero except for 0 itself |
| TimeFormat.DecimalRoundTrip | src/App.jsx:281-283 | reading the printed digits back gives the number |
| TimeFormat.PadStart | src/App.jsx:283 | `padStart`: the result has the target width (or the original length), ends with the input and is padded with the pad character |
| TimeFormat.FormatTime | src/App.jsx:280-284 | the clock is at least four characters: the minutes' digits with no leading zero unless there is only one, a colon, then exactly two digits |
| TimeFormat.SecondsField | src/App.jsx:282-283 | the padded seconds field is exactly two digits denoting the seconds |
| TimeFormat.ParseTimeAccepts | src/App.jsx:281-283 | the reader accepts any `M:SS` text whose two-digit field is below 60 and returns minutes * 60 + seconds |
| TimeFormat.ClockRoundTrip | src/App.jsx:281-283 | the clock for M minutes and S < 60 seconds reads back as M * 60 + S |
| TimeFormat.FormatTimeRoundTrip | src/App.jsx:280-284 | parsing `M:SS` back gives t, so M * 60 + SS == t |
| TimeFormat.FormatTimeInjective | src/App.jsx:280-284 | different positions format differently |
| TimeFormat.FormatTimeMinuteExample | src/App.jsx:280-284 | 75 seconds reads `1:15` |
| TimeFormat.FormatTimePaddingExample | src/App.jsx:280-284 | 5 seconds reads `0:05` |
| Player.JsRem | src/App.jsx:214 | JavaScript `%`: a remainder (the dividend minus the result is a multiple of n) that equals the Euclidean one for a non-negative dividend and lies in (-n, 0] for a negative one |
| Player.NextTrack | src/App.jsx:212-217 | no-op on an empty playlist; otherwise the index becomes `(i + 1) % n` with JavaScript's `%` and the position 0 for any index, which is (i+1) mod n from a well-formed state; playlist and flag unchanged; well-formedness kept |
| Player.HasCurrentSong | src/App.jsx:286 | `playlist[currentTrack]` exists only in a non-empty playlist, and in a well-formed state exactly when the playlist is non-empty |
| Player.PreviousTrack | src/App.jsx:219-224 | no-op on an empty playlist; otherwise n-1 from index 0 and i-1 from any other index, with position 0; playlist and flag unchanged; well-formedness kept |
| Player.HandleEnded | src/App.jsx:275-277 | end of track is one `nextTrack` step: a no-op on an empty playlist; otherwise position 0 and the index advanced to (i+1) mod n, off the current track when there are two or more; well-formedness kept; playlist, flag and duration unchanged |
| Player.TogglePlayPause | src/App.jsx:193-210 | no-op without a loaded track or when a promise rejects; otherwise flips the flag and changes nothing else |
| Player.PreviousUndoesNext | src/App.jsx:212-224 | previous after next returns to the same track at position 0 |
| Player.NextUndoesPrevious | src/App.jsx:212-224 | next after previous returns to the same track at position 0 |
| Player.PreviousIsModular | src/App.jsx:219-224 | previous sets the index to (i - 1 + n) mod n |
| Player.SingleTrackStays | src/App.jsx:212-224 | with one track both directions stay on index 0 |
| Player.NextTimesWraps | src/App.jsx:212-217 | k presses of next give index (i + k) mod n |
| Player.FullCircle | src/App.jsx:212-217 | n presses of next come back to the starting track |
| Player.ToggleTwiceRestores | src/App.jsx:193-210 | two resolved toggles give back the original state |
| Remote.ParseCommand | src/App.jsx:168-186 | each of the five wire names parses to its command; any other string becomes `Unknown` |
| Remote.ParseCommandName | src/App.jsx:168-183 | parsing a known command's wire name returns that command |
| Remote.Dispatch | src/App.jsx:164-190 | never changes the playlist; keeps well-formedness; unknown commands change nothing; play/pause commands change only the flag |
| Remote.HandleRemoteCommand | src/App.jsx:164-190 | a name other than the five commands leaves the state unchanged |
| Remote.RedundantCommandsAreNoops | src/App.jsx:172-177 | `play` while playing and `pause` while paused change nothing |
| Remote.PlayAndPauseReachTheirState | src/App.jsx:172-177 | with a track loaded, a resolved `play` leaves the player playing and a resolved `pause` leaves it paused |
| Remote.PlayPauseIdempotent | src/App.jsx:172-177 | `play` twice equals `play` once when both settle alike, or for any second outcome after a resolved first; likewise `pause` |
| Remote.PlayPauseFlips | src/App.jsx:169-170 | `playpause` flips the flag, and two in a row restore the state |
| Remote.NavigationDelegates | src/App.jsx:178-183 | remote `next` and `prev` act exactly like the local navigation |
| Remote.EmptyPlaylistIgnoresCommands | src/App.jsx:164-224 | with an empty playlist every command is a no-op |
| Library.IsAudio | src/App.jsx:231 | `startsWith('audio/')`: the MIME type's first six characters are exactly `audio/` |
| Library.IsAudioExamples | src/App.jsx:231 | `audio/mpeg` and `audio/` are accepted; `audio`, `video/mp4` and `Audio/mpeg` are not |
| Library.TrackOf | src/App.jsx:233-238 | the new track keeps the file's id and URL, and its name is the file name with the extension stripped |
| Library.AudioTracks | src/App.jsx:230-242 | at most one track per file |
| Library.AudioTracksCoverAudio | src/App.jsx:230-242 | every audio file of the batch yields its track |
| Library.AudioTracksAppend | src/App.jsx:230-242 | the appended tracks of a concatenation are the concatenation of the appended tracks, so input order is kept |
| Library.AudioTracksSingle | src/App.jsx:231 | one audio file yields one track; any other file yields nothing |
| Library.HandleFileUpload | src/App.jsx:227-245 | the existing tracks stay as a prefix and the audio tracks follow; index, flag and clock are unchanged; well-formedness kept |
| Library.AudioTracksFromAudio | src/App.jsx:230-238 | every appended track is the track of some audio file of the batch |
| Library.AudioTracksUniqueIds | src/App.jsx:230-240 | audio files with distinct ids give tracks with unique ids |
| Library.UploadKeepsIdsUnique | src/App.jsx:234-240 | fresh ids for the audio files keep the playlist's ids unique |
| Library.UploadIntoEmpty | src/App.jsx:240 | uploading audio into an empty playlist makes track 0 current |
| Library.RemoveTrack | src/App.jsx:247-260 | the kept tracks are exactly those with a different id; only the playlist and the index change |
| Library.RemovePresentTrack | src/App.jsx:247-260 | for a present id with unique ids: exactly that position goes, order is kept, ids stay unique; index becomes 0 if the current track is removed and tracks remain, shifts down if an earlier track is removed, otherwise stays; well-formedness kept |
| Library.RemoveAbsentTrack | src/App.jsx:249-256 | an absent id leaves the playlist as is but still decrements a non-negative index, so from index 0 the index becomes -1 |
| Library.RemoveRepeatedIdBreaksWellFormed | src/App.jsx:247-256 | with ids 1, 2, 1 and track 2 current, removing id 1 leaves one track but index 1, outside the playlist |
| SongInfo.SongInfoOf | src/App.jsx:100-107 | track number is index + 1, total is the playlist length, flag, position and duration copied (`Math.floor` is the identity on whole seconds), name is the current track's or `No Song` |
| SongInfo.TrackNumberInRange | src/App.jsx:105-106 | in a well-formed state with tracks, 1 <= trackNumber <= totalTracks and the name is that track's |
| SongInfo.EmptyPlaylistInfo | src/App.jsx:101-106 | an empty playlist is reported as `No Song`, track 1 of 0 |
| SongInfo.SongInfoDeterminesPosition | src/App.jsx:100-107 | equal payloads mean equal index, flag and playlist length |
| SongInfo.NextScenario | src/App.jsx:178-180 | from track 1 of 3, playing, a remote `next` gives track 2 of 3 at position 0, still playing |

## Left out

- The socket lifecycle: the `connect`/`disconnect` handlers, the connected flag and the `emit` call (src/App.jsx:67-95, 99, 109). These are network I/O; only the payload is modelled.
- React closure capture, which would matter even if the component rendered (see the next line). The `command` handler registered at src/App.jsx:84-88 is created once and sees the first-render state, where `playlist` is `[]`. In the code as written no remote command changes anything: `playpause`, `play`, `next` and `prev` return early at the empty-playlist guards (src/App.jsx:194, 213, 220); `pause` is skipped by the stale `isPlaying == false` test (src/App.jsx:176); unknown names only log (src/App.jsx:184-185). The `connect` handler (src/App.jsx:72-77) is registered in the same effect with `[]` dependencies (src/App.jsx:67-95), so it calls the first render's `sendSongInfo`: every connect and reconnect sends `No Song`, paused, 0 of 0, track 1 of 0, whatever the player holds, and no current payload follows until the track, the flag or the playlist length next changes (src/App.jsx:115-117). The modelled dispatch acts on the explicit current state: it is the behaviour the handler evidently intends, not the one that ships. `SongInfoOf` models only the payload sent on state changes.
- A running component. Read as JavaScript, every render of `App` evaluates the dependency array `[currentSong, …]` at src/App.jsx:117 before `const currentSong` is initialised at src/App.jsx:286. That read is in the temporal dead zone and throws a `ReferenceError`, so no effect ever registers the socket handlers or the payload effect (src/App.jsx:67-117). The model covers the handlers and the state updates as written, each read on its own, not a component that runs.
- Saving and loading the playlist in localStorage (src/App.jsx:47-64). This is a foreign JSON serializer over object URLs that do not survive a reload. An empty playlist is never saved there.
- The Web Audio analyser and the visualisation samples (src/App.jsx:120-161). These use a browser API and floating point.
- `handleTimeUpdate`, `handleLoadedMetadata` and the volume slider (src/App.jsx:263-273, 405-410). These copy floating-point media values; position and duration are whole seconds here.
- Floating-point progress (src/App.jsx:287). `formatTime` is modelled over whole seconds, where `Math.floor` is the identity. JavaScript numbers are doubles, so `Decimal` and `formatTime` are exact only for positions below 2^53 seconds; `toString` switches to exponent form from 1e21 up.
- `URL.createObjectURL` and `Date.now() + Math.random()` ids. These are inputs carried by each `UploadFile`. The properties about removal assume unique ids (`UniqueIds`, `FreshAudioIds`), which the source does not guarantee: `Date.now() + Math.random()` (src/App.jsx:234) is a double near 1.8e12, between 2^40 and 2^41, where doubles are 2^-12 apart, so there are at most 4096 ids per millisecond, and a batch of k files uploaded within one millisecond repeats an id with probability about k(k-1)/8192 (about 1% for 10 files). When that happens, `RemoveRepeatedIdBreaksWellFormed` describes what removal does. The track record's `file` field (src/App.jsx:237) holds the browser `File` object and is never read, so `Track` leaves it out.
- The audio element's own playback. `isPlaying` is the flag the player shows, not whether sound is playing. Next, previous and end of track (src/App.jsx:212-224, 275-277) change only the index and position, and removing the current track (src/App.jsx:252-253) changes only the playlist and index; none of them calls `play()`. Whenever the current track changes, the `<audio>` element gets a new `src` (src/App.jsx:518) and reloads paused. The only `play()` call is in the toggle (src/App.jsx:204), so after a track change while playing the flag stays true with nothing playing, and the next `playpause` only clears the flag.
- Clearing the file input (src/App.jsx:244). This is DOM I/O.
- Rendering and animation (src/App.jsx:289-527).
- Player.TogglePlayPause: one `Outcome` stands for both awaited promises, the audio context's `resume()` and the element's `play()`. Which one rejected is not distinguished, since either rejection leaves the state unchanged.
- Player.TogglePlayPause: each operation runs to completion before the next one starts; interleaved asynchronous calls are not modelled. In the source the toggle reads `isPlaying` from its render's closure (src/App.jsx:201) and later writes `setIsPlaying(!isPlaying)` from the same closure (src/App.jsx:206), after the awaits at src/App.jsx:198 and 204. Two toggles started before the first `play()` settles therefore both set `true`, so `Remote.PlayPauseFlips`'s "two in a row restore the state" holds only for sequential toggles; likewise a `pause` arriving while a `play` is pending sees `false`, does nothing, and the player ends up playing.
- Remote.PlayPauseIdempotent: idempotence of `play` is stated for equal outcomes, or for a resolved first delivery. A rejected `play` followed by a resolved one does start playback.

=== FILE: file_names.dfy ===
/** Track names from uploaded file names: the player replaces the first match
    of the JavaScript regular expression `/\.[^/.]+$/` by the empty string,
    which drops a final extension made of at least one character that is
    neither `.` nor `/`. */
module FileNames {

  import opened Options

  /** The regular expression matches starting at position p: a `.` there,
      then one or more characters up to the end of the input, none of them
      `.` or `/` (JavaScript's `$` without the `m` flag is the end of input). */
  ghost predicate ExtensionAt(name: string, p: int) {
    && 0 <= p
    && p + 1 < |name|
    && name[p] == '.'
    && forall k :: p < k < |name| ==> name[k] != '.' && name[k] != '/'
  }

  /** At most one position can start a match, so "first match" and "the
      match" are the same thing. */
  lemma ExtensionAtUnique(name: string, p: int, q: int)
    requires ExtensionAt(name, p) && ExtensionAt(name, q)
    ensures p == q
  {
  }

  /** Scans leftwards from position i, knowing that name[i..] holds no `.`
      and no `/`, for the start of the match. */
  function FindExtension(name: string, i: nat): (r: Option<nat>)
    requires i <= |name|
    requires forall k :: i <= k < |name| ==> name[k] != '.' && name[k] != '/'
    ensures r.Some? ==> ExtensionAt(name, r.value)
    ensures r.None? ==> forall p :: !ExtensionAt(name, p)
    decreases i
  {
    if i == 0 then None
    else if name[i - 1] == '.' then
      if i < |name| then Some(i - 1)
      else
        assert forall p :: p < i - 1 ==> !ExtensionAt(name, p) by {
          forall p | p < i - 1 ensures !ExtensionAt(name, p) {
            assert name[i - 1] == '.';
          }
        }
        None
    else if name[i - 1] == '/' then
      assert forall p :: p < i - 1 ==> !ExtensionAt(name, p) by {
        forall p | p < i - 1 ensures !ExtensionAt(name, p) {
          assert name[i - 1] == '/';
        }
      }
      None
    else FindExtension(name, i - 1)
  }

  /** `name.replace(/\.[^/.]+$/, "")`: the name cut just before the match,
      or the name itself when the expression does not match. */
  function StripExtension(name: string): (r: string)
    ensures forall p :: ExtensionAt(name, p) ==> r == name[..p]
    ensures (forall p :: !ExtensionAt(name, p)) ==> r == name
  {
    match FindExtension(name, |name|)
    case Some(p) =>
      assert forall q :: ExtensionAt(name, q) ==> q == p by {
        forall q | ExtensionAt(name, q) ensures q == p {
          ExtensionAtUnique(name, p, q);
        }
      }
      name[..p]
    case None => name
  }

  /** Whatever is removed is a non-empty, dot-free, slash-free tail after
      one dot: the result is a proper prefix exactly when a match exists. */
  lemma StripExtensionIsPrefix(name: string)
    ensures StripExtension(name) <= name
    ensures |StripExtension(name)| < |name| <==> exists p :: ExtensionAt(name, p)
  {
  }

  /** Only the last extension goes: `a.b.mp3` becomes `a.b`. */
  lemma StripsOnlyLastExtension()
    ensures StripExtension("a.b.mp3") == "a.b"
  {
    assert ExtensionAt("a.b.mp3", 3);
  }

  /** A name without a dot is kept: `noext` stays `noext`. */
  lemma KeepsNameWithoutDot()
    ensures StripExtension("noext") == "noext"
  {
  }

  /** A trailing dot is not an extension: `file.` stays `file.`. */
  lemma KeepsTrailingDot()
    ensures StripExtension("file.") == "file."
  {
  }

  /** A dot before a path separator does not start an extension:
      `dir.d/track` stays as it is. */
  lemma KeepsDotBeforeSlash()
    ensures StripExtension("dir.d/track") == "dir.d/track"
  {
    assert !ExtensionAt("dir.d/track", 3) by {
      assert "dir.d/track"[5] == '/';
    }
  }
}

=== FILE: library.dfy ===
/** Changes to the playlist: adding uploaded audio files and removing a
    track by id. */
module Library {

  import opened Playlist
  import opened Player
  import FileNames

  /** A picked file: its name and MIME type, plus the id and object URL the
      player would give it (drawn from the clock, a random number and the
      browser, so supplied here). */
  datatype UploadFile = UploadFile(name: string, mimeType: string, id: TrackId, url: string)

  /** `file.type.startsWith('audio/')`: the MIME type's first six
      characters are exactly `audio/`, compared case-sensitively. */
  function IsAudio(f: UploadFile): (b: bool)
    ensures b <==> |f.mimeType| >= 6 && f.mimeType[..6] == "audio/"
  {
    "audio/" <= f.mimeType
  }

  /** Which MIME types the picker accepts: any `audio/` subtype, even an
      empty one, but not a bare `audio`, another top-level type, or a
      different capitalisation. */
  lemma IsAudioExamples(name: string, id: TrackId, url: string)
    ensures IsAudio(UploadFile(name, "audio/mpeg", id, url))
    ensures IsAudio(UploadFile(name, "audio/", id, url))
    ensures !IsAudio(UploadFile(name, "audio", id, url))
    ensures !IsAudio(UploadFile(name, "video/mp4", id, url))
    ensures !IsAudio(UploadFile(name, "Audio/mpeg", id, url))
  {
    assert "audio/mpeg"[..6] == "audio/";
    assert "video/mp4"[0] != "audio/"[0];
    assert "Audio/mpeg"[0] != "audio/"[0];
  }

  /** The track built for an accepted file. */
  function TrackOf(f: UploadFile): (t: Track)
    ensures t.id == f.id && t.url == f.url
    ensures t.name == FileNames.StripExtension(f.name)
  {
    Track(f.id, FileNames.StripExtension(f.name), f.url)
  }

  /** The tracks the upload appends: one per audio file, in input order. */
  function AudioTracks(files: seq<UploadFile>): (r: seq<Track>)
    ensures |r| <= |files|
  {
    if |files| == 0 then []
    else
      var rest := AudioTracks(files[1..]);
      if IsAudio(files[0]) then [TrackOf(files[0])] + rest else rest
  }

  /** Every audio file of the batch yields its track. */
  lemma {:induction false} AudioTracksCoverAudio(files: seq<UploadFile>)
    ensures forall f :: f in files && IsAudio(f) ==> TrackOf(f) in AudioTracks(files)
  {
    if |files| > 0 {
      AudioTracksCoverAudio(files[1..]);
      assert files == [files[0]] + files[1..];
    }
  }

  /** Uploading a batch is uploading its parts one after the other, so the
      appended tracks keep the order of the files. */
  lemma {:induction false} AudioTracksAppend(a: seq<UploadFile>, b: seq<UploadFile>)
    ensures AudioTracks(a + b) == AudioTracks(a) + AudioTracks(b)
  {
    if |a| > 0 {
      assert (a + b)[1..] == a[1..] + b;
      AudioTracksAppend(a[1..], b);
    } else {
      assert a + b == b;
    }
  }

  /** One file: an audio file becomes one track, anything else is skipped. */
  lemma AudioTracksSingle(f: UploadFile)
    ensures IsAudio(f) ==> AudioTracks([f]) == [TrackOf(f)]
    ensures !IsAudio(f) ==> AudioTracks([f]) == []
  {
  }

  /** The file-picker handler: every audio file is appended after the
      existing tracks; the index, the transport flag and the position are
      untouched. */
  function HandleFileUpload(s: PlayerState, files: seq<UploadFile>): (r: PlayerState)
    ensures |r.playlist| == |s.playlist| + |AudioTracks(files)|
    ensures r.playlist[..|s.playlist|] == s.playlist
    ensures r.playlist[|s.playlist|..] == AudioTracks(files)
    ensures r == s.(playlist := r.playlist)
    ensures WellFormed(s) ==> WellFormed(r)
  {
    s.(playlist := s.playlist + AudioTracks(files))
  }

  /** The ids an upload would add: those of its audio files. */
  ghost predicate FreshAudioIds(pl: seq<Track>, files: seq<UploadFile>) {
    && (forall i, j :: 0 <= i < j < |files| && IsAudio(files[i]) && IsAudio(files[j]) ==>
          files[i].id != files[j].id)
    && (forall i, k :: 0 <= i < |files| && IsAudio(files[i]) && 0 <= k < |pl| ==>
          files[i].id != pl[k].id)
  }

  /** Every appended track is the track of an audio file of the batch. */
  lemma {:induction false} AudioTracksFromAudio(files: seq<UploadFile>, j: nat)
    requires j < |AudioTracks(files)|
    ensures exists i :: 0 <= i < |files| && IsAudio(files[i]) && AudioTracks(files)[j] == TrackOf(files[i])
  {
    var rest := files[1..];
    if IsAudio(files[0]) && j == 0 {
      assert AudioTracks(files)[0] == TrackOf(files[0]);
    } else {
      var j' := if IsAudio(files[0]) then j - 1 else j;
      assert AudioTracks(files)[j] == AudioTracks(rest)[j'];
      AudioTracksFromAudio(rest, j');
      var i :| 0 <= i < |rest| && IsAudio(rest[i]) && AudioTracks(rest)[j'] == TrackOf(rest[i]);
      assert rest[i] == files[i + 1];
    }
  }

  /** Audio files with pairwise distinct ids give tracks with unique ids. */
  lemma {:induction false} AudioTracksUniqueIds(files: seq<UploadFile>)
    requires forall i, j :: 0 <= i < j < |files| && IsAudio(files[i]) && IsAudio(files[j]) ==>
               files[i].id != files[j].id
    ensures UniqueIds(AudioTracks(files))
  {
    if |files| > 0 {
      var rest := files[1..];
      assert forall i, j :: 0 <= i < j < |rest| && IsAudio(rest[i]) && IsAudio(rest[j]) ==>
               rest[i].id != rest[j].id by {
        forall i, j | 0 <= i < j < |rest| && IsAudio(rest[i]) && IsAudio(rest[j])
          ensures rest[i].id != rest[j].id
        {
          assert rest[i] == files[i + 1] && rest[j] == files[j + 1];
        }
      }
      AudioTracksUniqueIds(rest);
      if IsAudio(files[0]) {
        var r := AudioTracks(files);
        var tail := AudioTracks(rest);
        assert r == [TrackOf(files[0])] + tail;
        FirstIdNotInRest(files);
        ConsKeepsUniqueIds(TrackOf(files[0]), tail);
      }
    }
  }

  /** The first file's id is not the id of any track the rest of the batch
      appends, when audio ids are pairwise distinct. */
  lemma FirstIdNotInRest(files: seq<UploadFile>)
    requires |files| > 0 && IsAudio(files[0])
    requires forall i, j :: 0 <= i < j < |files| && IsAudio(files[i]) && IsAudio(files[j]) ==>
               files[i].id != files[j].id
    ensures forall j :: 0 <= j < |AudioTracks(files[1..])| ==> AudioTracks(files[1..])[j].id != files[0].id
  {
    var rest := files[1..];
    var tail := AudioTracks(rest);
    forall j | 0 <= j < |tail|
      ensures tail[j].id != files[0].id
    {
      AudioTracksFromAudio(rest, j);
      var i :| 0 <= i < |rest| && IsAudio(rest[i]) && tail[j] == TrackOf(rest[i]);
      assert rest[i] == files[i + 1];
    }
  }

  /** A track whose id is new, put in front of a playlist with unique ids,
      keeps them unique. */
  lemma ConsKeepsUniqueIds(t: Track, tail: seq<Track>)
    requires UniqueIds(tail)
    requires forall j :: 0 <= j < |tail| ==> tail[j].id != t.id
    ensures UniqueIds([t] + tail)
  {
  }

  /** Two playlists with unique ids and no id in common concatenate to one
      with unique ids. */
  lemma AppendKeepsUniqueIds(a: seq<Track>, b: seq<Track>)
    requires UniqueIds(a) && UniqueIds(b)
    requires forall i, j :: 0 <= i < |a| && 0 <= j < |b| ==> a[i].id != b[j].id
    ensures UniqueIds(a + b)
  {
  }

  /** Fresh ids for the audio files keep the playlist's ids unique. */
  lemma UploadKeepsIdsUnique(pl: seq<Track>, files: seq<UploadFile>)
    requires UniqueIds(pl) && FreshAudioIds(pl, files)
    ensures UniqueIds(pl + AudioTracks(files))
  {
    var added := AudioTracks(files);
    AudioTracksUniqueIds(files);
    forall k, j | 0 <= k < |pl| && 0 <= j < |added|
      ensures pl[k].id != added[j].id
    {
      AudioTracksFromAudio(files, j);
    }
    AppendKeepsUniqueIds(pl, added);
  }

  /** Uploading audio into an empty playlist makes its first file the
      current track. */
  lemma UploadIntoEmpty(s: PlayerState, files: seq<UploadFile>)
    requires WellFormed(s) && |s.playlist| == 0
    requires exists f :: f in files && IsAudio(f)
    ensures HasCurrentSong(HandleFileUpload(s, files))
    ensures HandleFileUpload(s, files).currentTrack == 0
  {
    AudioTracksCoverAudio(files);
    var f :| f in files && IsAudio(f);
    assert TrackOf(f) in AudioTracks(files);
  }

  /** `removeTrack`: the playlist loses every track with this id; the index
      is compared with the position `findIndex` reports (-1 when absent).
      Removing the current track moves to track 0 when tracks remain;
      removing one before it shifts the index down by one. */
  function RemoveTrack(s: PlayerState, id: TrackId): (r: PlayerState)
    ensures |r.playlist| <= |s.playlist|
    ensures forall t :: t in r.playlist <==> t in s.playlist && t.id != id
    ensures r == s.(playlist := r.playlist, currentTrack := r.currentTrack)
  {
    WithoutIdMembers(s.playlist, id);
    var newPlaylist := WithoutId(s.playlist, id);
    var removedIndex := FindIndex(s.playlist, id);
    var current :=
      if removedIndex == s.currentTrack && |newPlaylist| > 0 then 0
      else if removedIndex < s.currentTrack then s.currentTrack - 1
      else s.currentTrack;
    s.(playlist := newPlaylist, currentTrack := current)
  }

  /** Removing a track that is there, from a playlist with unique ids:
      exactly that track goes, the rest keep their order, the index follows
      the rules above, and the state stays well formed. */
  lemma RemovePresentTrack(s: PlayerState, id: TrackId, k: nat)
    requires UniqueIds(s.playlist)
    requires k < |s.playlist| && s.playlist[k].id == id
    ensures var r := RemoveTrack(s, id);
      && r.playlist == s.playlist[..k] + s.playlist[k + 1..]
      && UniqueIds(r.playlist)
      && (k == s.currentTrack && |r.playlist| > 0 ==> r.currentTrack == 0)
      && (k < s.currentTrack ==> r.currentTrack == s.currentTrack - 1)
      && (k > s.currentTrack ==> r.currentTrack == s.currentTrack)
      && (WellFormed(s) ==> WellFormed(r))
  {
    assert FindIndex(s.playlist, id) == k;
    WithoutIdDeletesOne(s.playlist, id, k);
    DeleteKeepsUniqueIds(s.playlist, k);
  }

  /** Removing an id nobody carries keeps the playlist but still shifts a
      non-negative index down, because `findIndex` returns -1; from index 0
      this leaves the index at -1, no longer well formed. */
  lemma RemoveAbsentTrack(s: PlayerState, id: TrackId)
    requires !HasId(s.playlist, id)
    ensures RemoveTrack(s, id).playlist == s.playlist
    ensures 0 <= s.currentTrack ==> RemoveTrack(s, id).currentTrack == s.currentTrack - 1
    ensures s.currentTrack == 0 ==> !WellFormed(RemoveTrack(s, id))
  {
    WithoutAbsentId(s.playlist, id);
  }

  /** With a repeated id the index can fall out of range: removing the id
      of tracks 0 and 2 while track 2 plays deletes both, but the index
      only steps back once, to 1, past the end of the one track left. */
  lemma RemoveRepeatedIdBreaksWellFormed(a: Track, b: Track, c: Track, p: bool, t: nat, d: nat)
    requires a.id == c.id && b.id != a.id
    ensures var r := RemoveTrack(PlayerState([a, b, c], 2, p, t, d), a.id);
            r.playlist == [b] && r.currentTrack == 1 && !WellFormed(r)
  {
    var pl := [a, b, c];
    assert WithoutId([c], a.id) == [] by {
      assert [c][1..] == [];
    }
    assert WithoutId([b, c], a.id) == [b] by {
      assert [b, c][1..] == [c];
    }
    assert WithoutId(pl, a.id) == [b] by {
      assert pl[1..] == [b, c];
    }
    assert FindIndex(pl, a.id) == 0;
  }
}

=== FILE: options.dfy ===
/** The usual optional-value wrapper, for the model's own partial results:
    the position of a file-name extension, if any, and the seconds a clock
    text denotes, if it is well formed. */
module Options {

  datatype Option<+T> = None | Some(value: T)
}

=== FILE: player.dfy ===
/** The player's state and its local transport operations: next, previous,
    end-of-track and the play/pause toggle.  Each operation is a pure
    transition from one state to the next. */
module Player {

  import opened Playlist

  /** The state the player keeps: the playlist, the index of the current
      track (an integer, as in the source, so that a stray negative value is
      representable), the `isPlaying` flag the player shows, and the
      position and length of the current track in whole seconds. */
  datatype PlayerState = PlayerState(
    playlist: seq<Track>,
    currentTrack: int,
    isPlaying: bool,
    currentTime: nat,
    duration: nat)

  /** How the awaited audio promises settle: resuming a suspended audio
      context and, when starting, the media element's `play()`. */
  datatype Outcome = Resolved | Rejected

  /** The state every operation keeps: the index is never negative, and
      it points at a track unless the playlist is empty, when it is 0. */
  predicate WellFormed(s: PlayerState) {
    0 <= s.currentTrack && (s.currentTrack < |s.playlist| || s.currentTrack == 0)
  }

  /** `playlist[currentTrack]` is defined.  The audio element is rendered
      only then, so this is also "a track is loaded". */
  function HasCurrentSong(s: PlayerState): (b: bool)
    ensures b ==> |s.playlist| > 0
    ensures WellFormed(s) ==> (b <==> |s.playlist| > 0)
  {
    0 <= s.currentTrack < |s.playlist|
  }

  /** JavaScript's `%` on integers: the remainder truncates toward zero,
      so it takes the sign of the dividend. */
  function JsRem(a: int, n: int): (r: int)
    requires n > 0
    ensures 0 <= a ==> r == a % n
    ensures a < 0 ==> -n < r <= 0
    ensures (a - r) % n == 0
  {
    if a >= 0 then
      ModUnique(a - a % n, n, a / n, 0);
      a % n
    else
      ModUnique(a + (-a) % n, n, -((-a) / n), 0);
      -((-a) % n)
  }

  /** `nextTrack`: on an empty playlist nothing happens; otherwise the index
      moves one step forward, wrapping from the last track to the first,
      and the position goes back to 0. */
  function NextTrack(s: PlayerState): (r: PlayerState)
    ensures |s.playlist| == 0 ==> r == s
    ensures |s.playlist| > 0 ==>
              r.currentTrack == JsRem(s.currentTrack + 1, |s.playlist|) && r.currentTime == 0
    ensures |s.playlist| > 0 && WellFormed(s) ==>
              r.currentTrack == (s.currentTrack + 1) % |s.playlist|
    ensures WellFormed(s) ==> WellFormed(r)
    ensures r.playlist == s.playlist && r.isPlaying == s.isPlaying && r.duration == s.duration
  {
    if |s.playlist| == 0 then s
    else s.(currentTrack := JsRem(s.currentTrack + 1, |s.playlist|), currentTime := 0)
  }

  /** `previousTrack`: on an empty playlist nothing happens; otherwise the
      index moves one step back, wrapping from the first track to the last,
      and the position goes back to 0. */
  function PreviousTrack(s: PlayerState): (r: PlayerState)
    ensures |s.playlist| == 0 ==> r == s
    ensures |s.playlist| > 0 && s.currentTrack == 0 ==> r.currentTrack == |s.playlist| - 1
    ensures |s.playlist| > 0 && s.currentTrack != 0 ==> r.currentTrack == s.currentTrack - 1
    ensures |s.playlist| > 0 ==> r.currentTime == 0
    ensures WellFormed(s) ==> WellFormed(r)
    ensures r.playlist == s.playlist && r.isPlaying == s.isPlaying && r.duration == s.duration
  {
    if |s.playlist| == 0 then s
    else
      var prev := if s.currentTrack == 0 then |s.playlist| - 1 else s.currentTrack - 1;
      s.(currentTrack := prev, currentTime := 0)
  }

  /** `handleEnded`: the end of a track advances exactly one track. */
  function HandleEnded(s: PlayerState): (r: PlayerState)
    ensures |s.playlist| == 0 ==> r == s
    ensures |s.playlist| > 0 ==> r.currentTime == 0
    ensures WellFormed(s) ==> WellFormed(r)
    ensures |s.playlist| > 0 && WellFormed(s) ==>
              r.currentTrack == (s.currentTrack + 1) % |s.playlist|
    ensures |s.playlist| > 1 && WellFormed(s) ==> r.currentTrack != s.currentTrack
    ensures r.playlist == s.playlist && r.isPlaying == s.isPlaying && r.duration == s.duration
  {
    NextTrack(s)
  }

  /** `togglePlayPause`: without a loaded track (which covers the empty
      playlist) nothing happens.  Otherwise the awaited steps run; if one of
      them rejects, the exception is caught before the flag is flipped, so
      the state is unchanged; if they resolve, the flag is flipped. */
  function TogglePlayPause(s: PlayerState, o: Outcome): (r: PlayerState)
    ensures !HasCurrentSong(s) || o == Rejected ==> r == s
    ensures HasCurrentSong(s) && o == Resolved ==> r.isPlaying == !s.isPlaying
    ensures r == s.(isPlaying := r.isPlaying)
  {
    if !HasCurrentSong(s) || |s.playlist| == 0 then s
    else if o == Rejected then s
    else s.(isPlaying := !s.isPlaying)
  }

  /** Previous undoes next: coming back lands on the same track, at position 0. */
  lemma {:induction false} PreviousUndoesNext(s: PlayerState)
    requires WellFormed(s) && |s.playlist| > 0
    ensures PreviousTrack(NextTrack(s)) == s.(currentTime := 0)
  {
    var n := |s.playlist|;
    var i := s.currentTrack;
    if i == n - 1 {
      assert (i + 1) % n == 0;
    } else {
      assert (i + 1) % n == i + 1;
    }
  }

  /** Next undoes previous: going forward again lands on the same track. */
  lemma {:induction false} NextUndoesPrevious(s: PlayerState)
    requires WellFormed(s) && |s.playlist| > 0
    ensures NextTrack(PreviousTrack(s)) == s.(currentTime := 0)
  {
    var n := |s.playlist|;
    var p := PreviousTrack(s).currentTrack;
    if s.currentTrack == 0 {
      assert (p + 1) % n == 0;
    } else {
      assert (p + 1) % n == s.currentTrack;
    }
  }

  /** Previous is a step of -1 modulo the playlist length. */
  lemma PreviousIsModular(s: PlayerState)
    requires WellFormed(s) && |s.playlist| > 0
    ensures PreviousTrack(s).currentTrack == (s.currentTrack - 1 + |s.playlist|) % |s.playlist|
  {
  }

  /** With one track, both directions stay on track 0. */
  lemma SingleTrackStays(s: PlayerState)
    requires WellFormed(s) && |s.playlist| == 1
    ensures NextTrack(s).currentTrack == 0
    ensures PreviousTrack(s).currentTrack == 0
  {
  }

  /** The state after k presses of next. */
  function NextTimes(s: PlayerState, k: nat): PlayerState
    decreases k
  {
    if k == 0 then s else NextTrack(NextTimes(s, k - 1))
  }

  /** k presses of next move the index k places round the playlist. */
  lemma {:induction false} NextTimesWraps(s: PlayerState, k: nat)
    requires WellFormed(s) && |s.playlist| > 0
    ensures NextTimes(s, k).currentTrack == (s.currentTrack + k) % |s.playlist|
    ensures NextTimes(s, k).playlist == s.playlist && WellFormed(NextTimes(s, k))
    decreases k
  {
    if k > 0 {
      NextTimesWraps(s, k - 1);
      ModSucc(s.currentTrack + k - 1, |s.playlist|);
    }
  }

  /** ((a mod n) + 1) mod n == (a + 1) mod n. */
  lemma ModSucc(a: nat, n: nat)
    requires n > 0
    ensures (a % n + 1) % n == (a + 1) % n
  {
    var q, m := a / n, a % n;
    if m == n - 1 {
      ModUnique(a + 1, n, q + 1, 0);
      ModUnique(m + 1, n, 1, 0);
    } else {
      ModUnique(a + 1, n, q, m + 1);
      ModUnique(m + 1, n, 0, m + 1);
    }
  }

  /** Euclidean division has one quotient and one remainder. */
  lemma ModUnique(a: int, n: int, q: int, m: int)
    requires n > 0 && 0 <= m < n && a == q * n + m
    ensures a % n == m && a / n == q
  {
    var q', m' := a / n, a % n;
    assert a == q' * n + m';
    var d := q - q';
    assert d * n == m' - m by {
      assert q * n - q' * n == (q - q') * n;
    }
    if d > 0 {
      MulAtLeast(d, n);
    } else if d < 0 {
      MulAtLeast(-d, n);
    }
  }

  lemma MulAtLeast(d: int, n: int)
    requires d >= 1 && n > 0
    ensures d * n >= n
  {
  }

  /** Going once round the whole playlist comes back to the same track. */
  lemma FullCircle(s: PlayerState)
    requires WellFormed(s) && |s.playlist| > 0
    ensures NextTimes(s, |s.playlist|).currentTrack == s.currentTrack
  {
    NextTimesWraps(s, |s.playlist|);
    ModUnique(s.currentTrack + |s.playlist|, |s.playlist|, 1, s.currentTrack);
  }

  /** Two successful toggles restore the state exactly. */
  lemma ToggleTwiceRestores(s: PlayerState)
    ensures TogglePlayPause(TogglePlayPause(s, Resolved), Resolved) == s
  {
  }
}

=== FILE: playlist.dfy ===
/** Tracks and the ordered playlist that holds them.  A track's object URL and
    its numeric id are opaque here: ids are compared for equality only. */
module Playlist {

  /** The id the player draws from the clock and a random number; only its
      identity matters to the model. */
  type TrackId = int

  /** A playlist entry: its id, the display name derived from the file name,
      and the object URL of the audio bytes. */
  datatype Track = Track(id: TrackId, name: string, url: string)

  /** No two tracks of the playlist share an id. */
  ghost predicate UniqueIds(pl: seq<Track>) {
    forall i, j :: 0 <= i < j < |pl| ==> pl[i].id != pl[j].id
  }

  /** Whether some track of the playlist carries `id`. */
  ghost predicate HasId(pl: seq<Track>, id: TrackId) {
    exists i :: 0 <= i < |pl| && pl[i].id == id
  }

  /** `Array.prototype.findIndex` with the predicate `track.id === id`:
      the first position holding `id`, or -1 when there is none. */
  function FindIndex(pl: seq<Track>, id: TrackId): (r: int)
    ensures -1 <= r < |pl|
    ensures r == -1 <==> !HasId(pl, id)
    ensures 0 <= r ==> pl[r].id == id && forall i :: 0 <= i < r ==> pl[i].id != id
  {
    if |pl| == 0 then -1
    else if pl[0].id == id then 0
    else
      var j := FindIndex(pl[1..], id);
      if j < 0 then
        assert forall i :: 1 <= i < |pl| ==> pl[i] == pl[1..][i - 1];
        -1
      else
        assert pl[1..][j] == pl[j + 1];
        j + 1
  }

  /** `Array.prototype.filter` with the predicate `track.id !== id`: every
      track whose id differs from `id`, in playlist order. */
  function WithoutId(pl: seq<Track>, id: TrackId): (r: seq<Track>)
    ensures |r| <= |pl|
    ensures forall i :: 0 <= i < |r| ==> r[i].id != id
  {
    if |pl| == 0 then []
    else if pl[0].id == id then WithoutId(pl[1..], id)
    else [pl[0]] + WithoutId(pl[1..], id)
  }

  /** The filter keeps exactly the tracks whose id differs. */
  lemma {:induction false} WithoutIdMembers(pl: seq<Track>, id: TrackId)
    ensures forall t :: t in WithoutId(pl, id) <==> t in pl && t.id != id
  {
    if |pl| > 0 {
      WithoutIdMembers(pl[1..], id);
      assert pl == [pl[0]] + pl[1..];
    }
  }

  /** Filtering out an id nobody carries gives the playlist back unchanged. */
  lemma {:induction false} WithoutAbsentId(pl: seq<Track>, id: TrackId)
    requires !HasId(pl, id)
    ensures WithoutId(pl, id) == pl
  {
    if |pl| > 0 {
      assert pl[0].id != id;
      assert !HasId(pl[1..], id) by {
        forall i | 0 <= i < |pl[1..]|
          ensures pl[1..][i].id != id
        {
          assert pl[1..][i] == pl[i + 1];
        }
      }
      WithoutAbsentId(pl[1..], id);
      assert [pl[0]] + pl[1..] == pl;
    }
  }

  /** With unique ids, filtering out the id at position k is exactly deleting
      position k: the others keep their relative order. */
  lemma {:induction false} WithoutIdDeletesOne(pl: seq<Track>, id: TrackId, k: nat)
    requires UniqueIds(pl)
    requires k < |pl| && pl[k].id == id
    ensures WithoutId(pl, id) == pl[..k] + pl[k + 1..]
  {
    var rest := pl[1..];
    TailKeepsUniqueIds(pl);
    if k == 0 {
      HeadIdNotInTail(pl);
      WithoutAbsentId(rest, id);
    } else {
      assert pl[0].id != id;
      assert rest[k - 1] == pl[k];
      WithoutIdDeletesOne(rest, id, k - 1);
      assert [pl[0]] + (rest[..k - 1] + rest[k..]) == pl[..k] + pl[k + 1..];
    }
  }

  /** Dropping the first track keeps the ids unique. */
  lemma TailKeepsUniqueIds(pl: seq<Track>)
    requires UniqueIds(pl) && |pl| > 0
    ensures UniqueIds(pl[1..])
  {
  }

  /** With unique ids, the first track's id occurs nowhere after it. */
  lemma HeadIdNotInTail(pl: seq<Track>)
    requires UniqueIds(pl) && |pl| > 0
    ensures !HasId(pl[1..], pl[0].id)
  {
  }

  /** Deleting one position keeps the remaining ids pairwise distinct. */
  lemma DeleteKeepsUniqueIds(pl: seq<Track>, k: nat)
    requires UniqueIds(pl) && k < |pl|
    ensures UniqueIds(pl[..k] + pl[k + 1..])
  {
  }
}

=== FILE: remote.dfy ===
/** Commands from the remote controller.  Each inbound message names a
    command; the dispatcher maps it onto the player's own operations and
    ignores names it does not know. */
module Remote {

  import opened Player

  /** The commands the controller sends, plus any other name. */
  datatype Command = PlayPause | Play | Pause | Next | Prev | Unknown(name: string)

  /** The wire name of each known command. */
  function CommandName(c: Command): string
    requires !c.Unknown?
  {
    match c
    case PlayPause => "playpause"
    case Play => "play"
    case Pause => "pause"
    case Next => "next"
    case Prev => "prev"
  }

  /** The `switch` on the received name: the five known names, and every
      other string as `Unknown`. */
  function ParseCommand(name: string): (c: Command)
    ensures c.Unknown? ==> c.name == name
    ensures !c.Unknown? ==> CommandName(c) == name
  {
    if name == "playpause" then PlayPause
    else if name == "play" then Play
    else if name == "pause" then Pause
    else if name == "next" then Next
    else if name == "prev" then Prev
    else Unknown(name)
  }

  /** Parsing a known command's wire name gives the command back. */
  lemma ParseCommandName(c: Command)
    requires !c.Unknown?
    ensures ParseCommand(CommandName(c)) == c
  {
  }

  /** `handleRemoteCommand` on an already-parsed command.  `o` says how the
      toggle's awaited steps settle, when a toggle happens at all. */
  function Dispatch(s: PlayerState, c: Command, o: Outcome): (r: PlayerState)
    ensures r.playlist == s.playlist
    ensures WellFormed(s) ==> WellFormed(r)
    ensures c.Unknown? ==> r == s
    ensures (c.PlayPause? || c.Play? || c.Pause?) ==> r == s.(isPlaying := r.isPlaying)
  {
    match c
    case PlayPause => TogglePlayPause(s, o)
    case Play => if !s.isPlaying then TogglePlayPause(s, o) else s
    case Pause => if s.isPlaying then TogglePlayPause(s, o) else s
    case Next => NextTrack(s)
    case Prev => PreviousTrack(s)
    case Unknown(_) => s
  }

  /** The handler as the socket sees it: a raw command name. */
  function HandleRemoteCommand(s: PlayerState, name: string, o: Outcome): (r: PlayerState)
    ensures r.playlist == s.playlist
    ensures WellFormed(s) ==> WellFormed(r)
    ensures name !in {"playpause", "play", "pause", "next", "prev"} ==> r == s
  {
    Dispatch(s, ParseCommand(name), o)
  }

  /** `play` while playing and `pause` while paused change nothing,
      however the promises would have settled. */
  lemma RedundantCommandsAreNoops(s: PlayerState, o: Outcome)
    ensures s.isPlaying ==> Dispatch(s, Play, o) == s
    ensures !s.isPlaying ==> Dispatch(s, Pause, o) == s
  {
  }

  /** A delivered `play` (the promises resolve, a track is loaded) leaves
      the player playing; a delivered `pause` leaves it paused. */
  lemma PlayAndPauseReachTheirState(s: PlayerState)
    requires HasCurrentSong(s)
    ensures Dispatch(s, Play, Resolved).isPlaying
    ensures !Dispatch(s, Pause, Resolved).isPlaying
  {
  }

  /** `play` and `pause` are idempotent: a duplicate delivery that settles
      the same way does nothing more.  After a resolved first delivery, the
      second does nothing however it settles. */
  lemma {:induction false} PlayPauseIdempotent(s: PlayerState, o: Outcome, o2: Outcome)
    ensures Dispatch(Dispatch(s, Play, o), Play, o) == Dispatch(s, Play, o)
    ensures Dispatch(Dispatch(s, Pause, o), Pause, o) == Dispatch(s, Pause, o)
    ensures Dispatch(Dispatch(s, Play, Resolved), Play, o2) == Dispatch(s, Play, Resolved)
    ensures Dispatch(Dispatch(s, Pause, Resolved), Pause, o2) == Dispatch(s, Pause, Resolved)
  {
  }

  /** `playpause` is a flip, not idempotent: with a track loaded, one
      delivery changes the flag and two deliveries restore the state. */
  lemma PlayPauseFlips(s: PlayerState)
    requires HasCurrentSong(s)
    ensures Dispatch(s, PlayPause, Resolved).isPlaying == !s.isPlaying
    ensures Dispatch(Dispatch(s, PlayPause, Resolved), PlayPause, Resolved) == s
  {
  }

  /** `next` and `prev` act exactly like the local buttons. */
  lemma NavigationDelegates(s: PlayerState, o: Outcome)
    ensures HandleRemoteCommand(s, "next", o) == NextTrack(s)
    ensures HandleRemoteCommand(s, "prev", o) == PreviousTrack(s)
  {
  }

  /** With an empty playlist every remote command is a no-op. */
  lemma EmptyPlaylistIgnoresCommands(s: PlayerState, c: Command, o: Outcome)
    requires |s.playlist| == 0
    ensures Dispatch(s, c, o) == s
  {
  }
}

=== FILE: song_info.dfy ===
/** The `songInfo` payload that the effect at src/App.jsx:115-117 is written
    to send to the controller whenever the track, the transport flag or the
    playlist length changes.  Only that payload, built from the current
    state, is modelled; sending it is I/O. */
module SongInfo {

  import opened Playlist
  import opened Player
  import Remote

  /** The outbound payload. */
  datatype SongInfo = SongInfo(
    songName: string,
    isPlaying: bool,
    currentTime: nat,
    duration: nat,
    trackNumber: int,
    totalTracks: nat)

  /** The name shown for "no current track". */
  const NoSong: string := "No Song"

  /** The payload built from the state: the current track's name (or the
      placeholder), the transport flag and clock, a 1-based track number and
      the playlist length. */
  function SongInfoOf(s: PlayerState): (r: SongInfo)
    ensures r.trackNumber - 1 == s.currentTrack && r.totalTracks == |s.playlist|
    ensures r.isPlaying == s.isPlaying
    ensures r.currentTime == s.currentTime && r.duration == s.duration
    ensures HasCurrentSong(s) ==> r.songName == s.playlist[s.currentTrack].name
    ensures !HasCurrentSong(s) ==> r.songName == NoSong
  {
    SongInfo(
      if HasCurrentSong(s) then s.playlist[s.currentTrack].name else NoSong,
      s.isPlaying,
      s.currentTime,
      s.duration,
      s.currentTrack + 1,
      |s.playlist|)
  }

  /** In a well-formed state with tracks, the track number the controller
      shows is between 1 and the total, and it names a real track. */
  lemma TrackNumberInRange(s: PlayerState)
    requires WellFormed(s) && |s.playlist| > 0
    ensures 1 <= SongInfoOf(s).trackNumber <= SongInfoOf(s).totalTracks
    ensures SongInfoOf(s).songName == s.playlist[SongInfoOf(s).trackNumber - 1].name
  {
  }

  /** With an empty playlist the controller is told "No Song", track 1 of 0. */
  lemma EmptyPlaylistInfo(s: PlayerState)
    requires WellFormed(s) && |s.playlist| == 0
    ensures SongInfoOf(s).songName == NoSong
    ensures SongInfoOf(s).trackNumber == 1 && SongInfoOf(s).totalTracks == 0
  {
  }

  /** The controller can tell states apart by track, flag and length: two
      states with the same payload share index, flag and playlist length. */
  lemma SongInfoDeterminesPosition(s: PlayerState, u: PlayerState)
    requires SongInfoOf(s) == SongInfoOf(u)
    ensures s.currentTrack == u.currentTrack
    ensures s.isPlaying == u.isPlaying && |s.playlist| == |u.playlist|
  {
  }

  /** Three tracks, the first playing: a remote `next` moves to the second
      track at position 0, still playing, and the payload reads track 2 of 3. */
  lemma NextScenario(a: Track, b: Track, c: Track, t: nat, d: nat, o: Outcome)
    ensures var s := PlayerState([a, b, c], 0, true, t, d);
            var r := Remote.HandleRemoteCommand(s, "next", o);
            && r.currentTrack == 1 && r.currentTime == 0 && r.isPlaying
            && SongInfoOf(r).trackNumber == 2 && SongInfoOf(r).totalTracks == 3
            && SongInfoOf(r).songName == b.name
  {
  }
}

=== FILE: time_format.dfy ===
/** The `M:SS` clock shown under the track name.  The player formats a
    position in seconds as its whole minutes, a colon, and the remaining
    seconds padded to two digits with `0`.  Positions are whole seconds here. */
module TimeFormat {

  import opened Options

  /** The character of a decimal digit. */
  function DigitChar(d: nat): (c: char)
    requires d < 10
    ensures '0' <= c <= '9'
  {
    ('0' as int + d) as char
  }

  predicate IsDigit(c: char) {
    '0' <= c <= '9'
  }

  /** The value of a digit character. */
  function DigitValue(c: char): (d: nat)
    requires IsDigit(c)
    ensures d < 10 && DigitChar(d) == c
  {
    c as int - '0' as int
  }

  /** The first k characters of s are digits. */
  predicate DigitsUpTo(s: string, k: nat) {
    k <= |s| && forall i :: 0 <= i < k ==> IsDigit(s[i])
  }

  /** The number the first k characters of s denote, most significant first. */
  function ValueUpTo(s: string, k: nat): nat
    requires DigitsUpTo(s, k)
  {
    if k == 0 then 0 else ValueUpTo(s, k - 1) * 10 + DigitValue(s[k - 1])
  }

  /** Characters after position k do not affect the value of the first k. */
  lemma {:induction false} ValueUpToPrefix(a: string, b: string, k: nat)
    requires DigitsUpTo(a, k)
    ensures DigitsUpTo(a + b, k) && ValueUpTo(a + b, k) == ValueUpTo(a, k)
  {
    assert forall i :: 0 <= i < k ==> (a + b)[i] == a[i];
    if k > 0 {
      ValueUpToPrefix(a, b, k - 1);
    }
  }

  /** `Number.prototype.toString()` on a non-negative integer: its decimal
      digits, most significant first, without leading zeros. */
  function Decimal(n: nat): (r: string)
    ensures |r| >= 1 && DigitsUpTo(r, |r|)
    ensures n < 10 <==> |r| == 1
    ensures n > 0 ==> r[0] != '0'
    ensures |r| > 1 ==> r[0] != '0'
    decreases n
  {
    if n < 10 then [DigitChar(n)] else Decimal(n / 10) + [DigitChar(n % 10)]
  }

  /** Reading back the digits that `Decimal` wrote gives the number. */
  lemma {:induction false} DecimalRoundTrip(n: nat)
    ensures ValueUpTo(Decimal(n), |Decimal(n)|) == n
    decreases n
  {
    if n >= 10 {
      var d := Decimal(n / 10);
      DecimalRoundTrip(n / 10);
      ValueUpToPrefix(d, [DigitChar(n % 10)], |d|);
    }
  }

  /** `String.prototype.padStart(width, c)` with a one-character pad. */
  function PadStart(s: string, width: nat, c: char): (r: string)
    ensures |r| == if |s| >= width then |s| else width
    ensures r[|r| - |s|..] == s
    ensures forall i :: 0 <= i < |r| - |s| ==> r[i] == c
  {
    if |s| >= width then s else seq(width - |s|, _ => c) + s
  }

  /** The clock text for a number of minutes and a number of seconds under
      60: the minutes in decimal, a colon, the seconds padded to two digits. */
  function Clock(minutes: nat, seconds: nat): string
    requires seconds < 60
  {
    Decimal(minutes) + ":" + PadStart(Decimal(seconds), 2, '0')
  }

  /** `formatTime` over whole seconds. */
  function FormatTime(t: nat): (r: string)
    ensures |r| >= 4 && r[|r| - 3] == ':'
    ensures DigitsUpTo(r, |r| - 3) && IsDigit(r[|r| - 2]) && IsDigit(r[|r| - 1])
    ensures |r| > 4 ==> r[0] != '0'
  {
    var minutes, seconds := t / 60, t % 60;
    ClockParts(minutes, seconds);
    SecondsField(seconds);
    Clock(minutes, seconds)
  }

  /** Reads a `M:SS` clock back into seconds: one or more digits, a colon,
      exactly two digits below 60.  Anything else is rejected. */
  function ParseTime(s: string): (r: Option<nat>)
    ensures r.Some? ==> |s| >= 4 && s[|s| - 3] == ':'
  {
    if |s| < 4 || s[|s| - 3] != ':' then None
    else if !DigitsUpTo(s, |s| - 3) || !IsDigit(s[|s| - 2]) || !IsDigit(s[|s| - 1]) then None
    else
      var seconds := DigitValue(s[|s| - 2]) * 10 + DigitValue(s[|s| - 1]);
      if seconds >= 60 then None
      else Some(ValueUpTo(s, |s| - 3) * 60 + seconds)
  }

  /** The seconds field: two digits denoting the seconds, zero-padded. */
  lemma SecondsField(seconds: nat)
    requires seconds < 60
    ensures var p := PadStart(Decimal(seconds), 2, '0');
            |p| == 2 && IsDigit(p[0]) && IsDigit(p[1])
            && DigitValue(p[0]) * 10 + DigitValue(p[1]) == seconds
  {
    var d := Decimal(seconds);
    if seconds < 10 {
      DecimalOneDigit(seconds);
      assert PadStart(d, 2, '0') == ['0', DigitChar(seconds)];
    } else {
      DecimalTwoDigits(seconds);
      assert PadStart(d, 2, '0') == d;
    }
  }

  /** Where the pieces of a clock sit: the minutes' digits, then the colon
      three places from the end, then the two-character seconds field. */
  lemma ClockParts(minutes: nat, seconds: nat)
    requires seconds < 60
    ensures var r := Clock(minutes, seconds);
            var p := PadStart(Decimal(seconds), 2, '0');
            && |r| == |Decimal(minutes)| + 3
            && DigitsUpTo(r, |r| - 3) && ValueUpTo(r, |r| - 3) == minutes
            && r[|r| - 3] == ':' && r[|r| - 2] == p[0] && r[|r| - 1] == p[1]
            && r[0] == Decimal(minutes)[0]
  {
    var m := Decimal(minutes);
    var p := PadStart(Decimal(seconds), 2, '0');
    assert |p| == 2;
    DecimalRoundTrip(minutes);
    ValueUpToPrefix(m, ":" + p, |m|);
    assert m + ":" + p == m + (":" + p);
  }

  /** The clock for M minutes and S seconds reads back as M * 60 + S. */
  lemma ClockRoundTrip(minutes: nat, seconds: nat)
    requires seconds < 60
    ensures ParseTime(Clock(minutes, seconds)) == Some(minutes * 60 + seconds)
  {
    ClockParts(minutes, seconds);
    SecondsField(seconds);
    ParseTimeAccepts(Clock(minutes, seconds), minutes, seconds);
  }

  /** A string of the `M:SS` shape whose fields denote `minutes` and
      `seconds < 60` parses to their total in seconds. */
  lemma ParseTimeAccepts(s: string, minutes: nat, seconds: nat)
    requires |s| >= 4 && s[|s| - 3] == ':'
    requires DigitsUpTo(s, |s| - 3) && ValueUpTo(s, |s| - 3) == minutes
    requires IsDigit(s[|s| - 2]) && IsDigit(s[|s| - 1])
    requires DigitValue(s[|s| - 2]) * 10 + DigitValue(s[|s| - 1]) == seconds < 60
    ensures ParseTime(s) == Some(minutes * 60 + seconds)
  {
  }

  /** Formatting then reading back gives the original number of seconds, so
      the minutes M and the seconds SS shown satisfy M * 60 + SS == t. */
  lemma {:induction false} FormatTimeRoundTrip(t: nat)
    ensures ParseTime(FormatTime(t)) == Some(t)
  {
    var minutes, seconds := t / 60, t % 60;
    assert minutes * 60 + seconds == t;
    ClockRoundTrip(minutes, seconds);
    assert FormatTime(t) == Clock(minutes, seconds);
  }

  /** Different positions show different clocks. */
  lemma FormatTimeInjective(t: nat, u: nat)
    requires FormatTime(t) == FormatTime(u)
    ensures t == u
  {
    FormatTimeRoundTrip(t);
    FormatTimeRoundTrip(u);
  }

  /** A number below 10 prints as its one digit. */
  lemma DecimalOneDigit(n: nat)
    requires n < 10
    ensures Decimal(n) == [DigitChar(n)]
  {
  }

  /** A number from 10 to 99 prints as its two digits. */
  lemma DecimalTwoDigits(n: nat)
    requires 10 <= n < 100
    ensures Decimal(n) == [DigitChar(n / 10), DigitChar(n % 10)]
  {
    DecimalOneDigit(n / 10);
  }

  /** Seventy-five seconds read `1:15`. */
  lemma FormatTimeMinuteExample()
    ensures FormatTime(75) == "1:15"
  {
    assert Clock(1, 15) == "1:15" by {
      assert Decimal(1) == "1" by {
        DecimalOneDigit(1);
        assert DigitChar(1) == '1';
      }
      assert Decimal(15) == "15" by {
        DecimalTwoDigits(15);
        assert DigitChar(1) == '1' && DigitChar(5) == '5';
      }
      assert PadStart("15", 2, '0') == "15";
    }
    assert 75 / 60 == 1 && 75 % 60 == 15;
  }

  /** Five seconds read `0:05`: the seconds are zero-padded. */
  lemma FormatTimePaddingExample()
    ensures FormatTime(5) == "0:05"
  {
    assert Clock(0, 5) == "0:05" by {
      assert Decimal(0) == "0" by {
        DecimalOneDigit(0);
        assert DigitChar(0) == '0';
      }
      assert Decimal(5) == "5" by {
        DecimalOneDigit(5);
        assert DigitChar(5) == '5';
      }
      assert PadStart("5", 2, '0') == "05";
    }
    assert 5 / 60 == 0 && 5 % 60 == 5;
  }
}
